=== FILE: README.md ===
# OpsGenie Jenkins plugin: notification payload and step options

A Dafny model of the part of the OpsGenie Jenkins plugin that decides what is
sent to OpsGenie:

- how `OpsGenieNotificationService` assembles its key/value payload before
  and after a build;
- its text formatters (commit list, failed tests, culprits, build variables)
  and the tag/team comma splitter;
- where the request goes (scheme, host, path, API key, proxy) and how the
  reply is judged;
- how the `opsgenie` pipeline step resolves its options against the global
  settings and triggers a send.

Jenkins objects are an immutable `BuildSnapshot`. Java `null` is `Option`.
Library calls are function-typed inputs: URI parsing, no-proxy pattern
matching, JSON serialisation, the HTTP exchange, JSON reading of the reply
and `AlertPriority.fromDisplayName`.

Modules, one per concern, each in its own file:

| file | module | what it holds |
|---|---|---|
| `wrappers.dfy` | `Wrappers` | `Option` |
| `java_text.dfy` | `JavaText` | `String.trim()`, `StringUtils.isBlank`, `Integer.toString` with a reference reader, `StringBuilder` appends |
| `comma_list.dfy` | `CommaList` | `String.split(",")` and `splitStringWithComma`, with both round trips |
| `build.dfy` | `Build` | the build snapshot and result kinds |
| `format.dfy` | `Format` | the four formatters |
| `payload.dfy` | `Payload` | payload keys, the mandatory fields and the two sends' entries |
| `delivery.dfy` | `Delivery` | target, proxy and reply classification |
| `service.dfy` | `Service` | a service instance and its two sends |
| `trigger_step.dfy` | `TriggerStep` | step option resolution and `run` |

The payload map belongs to the service instance. It is created once, in the
constructor, and every send only puts into it. So a send is modelled as "the
map before the send, updated with the keys this send writes". A key written
by an earlier send on the same instance survives a later send that does not
write it (`Service.StalePriorityOutlivesPreBuild`). `OpsGenieNotificationService`
declares the map as a field (line 46) and creates it once, in the constructor
(line 57).

## Model

Source paths are relative to the repository root.

| member | source | states |
|---|---|---|
| JavaText.Trim | src/main/java/com/opsgenie/integration/jenkins/OpsGenieNotificationService.java:318-319 | `trim()` leaves no trimmable character at either end. It shortens or keeps the string, gives "" exactly for input made only of characters at or below U+0020, and changes nothing on an already trimmed string |
| JavaText.TrimKeepsMiddle | src/main/java/com/opsgenie/integration/jenkins/OpsGenieNotificationService.java:318-319 | what `trim()` keeps is the contiguous run of the input that starts after its leading characters at or below U+0020; every character after that run is at or below U+0020 too |
| JavaText.IsBlank | src/main/java/com/opsgenie/integration/jenkins/OpsGenieNotificationService.java:184 | no contract of its own: `StringUtils.isBlank` holds for null and for text made only of `Character.isWhitespace` characters; see JavaText.BlankIsNotTrimToEmpty |
| JavaText.BlankIsNotTrimToEmpty | src/main/java/com/opsgenie/integration/jenkins/OpsGenieNotificationService.java:184 | blank is not the same as trimming to "": a NUL character is trimmed away but is not blank, and an em space is blank but is not trimmed |
| JavaText.NullToString | src/main/java/com/opsgenie/integration/jenkins/OpsGenieNotificationService.java:299 | string concatenation renders a non-null string as itself and a null one as "null", as happens to a null Jenkins root URL |
| JavaText.IntToString | src/main/java/com/opsgenie/integration/jenkins/OpsGenieNotificationService.java:219-224 | `Integer.toString` writes a minus sign exactly for negative numbers, then at least one decimal digit, with a leading zero only for zero |
| JavaText.IntToStringZero | src/main/java/com/opsgenie/integration/jenkins/OpsGenieNotificationService.java:219-224 | zero, the usual failed and skipped count, is written as the single digit "0" |
| JavaText.IntToStringRoundTrip | src/main/java/com/opsgenie/integration/jenkins/OpsGenieNotificationService.java:219-224 | reading back the decimal text `Integer.toString` writes gives the same number, negative ones included |
| CommaList.Pieces | src/main/java/com/opsgenie/integration/jenkins/OpsGenieNotificationService.java:318 | the comma pieces of a string are comma-free and at least one. There is exactly one piece iff the string has no comma, and then it is the string itself |
| CommaList.SplitOnComma | src/main/java/com/opsgenie/integration/jenkins/OpsGenieNotificationService.java:318 | `split(",")` gives comma-free tokens, and the whole string when there is no comma (so "" gives [""]) |
| CommaList.SplitKeepsPiecesToLastNonEmpty | src/main/java/com/opsgenie/integration/jenkins/OpsGenieNotificationService.java:318 | with a comma present, the split is the pieces in order, up to the last non-empty one; only empty pieces are dropped |
| CommaList.PiecesOfJoin | src/main/java/com/opsgenie/integration/jenkins/OpsGenieNotificationService.java:318 | splitting comma-free tokens joined by commas gives exactly those tokens, empty ones included |
| CommaList.SplitStringWithComma | src/main/java/com/opsgenie/integration/jenkins/OpsGenieNotificationService.java:311-323 | null gives no tokens. Otherwise every token is trimmed and comma-free, and token i is the trimmed i-th part of the split of the trimmed input, in input order |
| CommaList.EmptyInputGivesOneEmptyToken | src/main/java/com/opsgenie/integration/jenkins/OpsGenieNotificationService.java:311-323 | an empty, non-null tag string yields one empty token, not none |
| CommaList.SplitThenJoin | src/main/java/com/opsgenie/integration/jenkins/OpsGenieNotificationService.java:311-323 | for input with no character at or below U+0020 that does not end in a comma, joining the tokens with commas gives the input back |
| CommaList.JoinThenSplit | src/main/java/com/opsgenie/integration/jenkins/OpsGenieNotificationService.java:311-323 | trimmed, comma-free tokens joined with commas split back into the same tokens, unless there are several and the last is empty |
| Format.FormatCommitList | src/main/java/com/opsgenie/integration/jenkins/OpsGenieNotificationService.java:162-176 | an empty change set gives exactly "No changes.\n\n"; a non-empty one gives only the per-entry lines |
| Format.NoChangesExactlyWhenEmpty | src/main/java/com/opsgenie/integration/jenkins/OpsGenieNotificationService.java:162-176 | the commit list is "No changes.\n\n" iff the change set is empty; a non-empty set never produces that text |
| Format.CommitListInOrder | src/main/java/com/opsgenie/integration/jenkins/OpsGenieNotificationService.java:168-174 | entry i's `msg - <strong>author</strong><br>` line sits between the lines of the entries before and after it |
| Format.FailedTestEntry | src/main/java/com/opsgenie/integration/jenkins/OpsGenieNotificationService.java:180-188 | each failed-test entry starts with `<strong>` followed by the test's full name and ends with a blank line. With null or blank details it is exactly `<strong>name</strong>`, the line separator and "\n\n" |
| Format.BlankDetailsAreOmitted | src/main/java/com/opsgenie/integration/jenkins/OpsGenieNotificationService.java:184-186 | blank error details give the same entry as no details |
| Format.DetailsFollowName | src/main/java/com/opsgenie/integration/jenkins/OpsGenieNotificationService.java:181-188 | non-blank details appear verbatim after the bold name and line separator, before the closing "\n\n" |
| Format.FormatFailedTests | src/main/java/com/opsgenie/integration/jenkins/OpsGenieNotificationService.java:178-191 | the failed-test text is empty iff there are no failed tests; see Format.FailedTestsInOrder for its contents |
| Format.FailedTestsInOrder | src/main/java/com/opsgenie/integration/jenkins/OpsGenieNotificationService.java:178-191 | test i's entry sits between the entries of the tests before and after it |
| Format.FormatCulprits | src/main/java/com/opsgenie/integration/jenkins/OpsGenieNotificationService.java:273-279 | the culprit text is empty iff there are no culprits; see Format.CulpritsSplitBack for its contents |
| Format.CulpritsAreJoinedWithTrailingComma | src/main/java/com/opsgenie/integration/jenkins/OpsGenieNotificationService.java:273-279 | the culprit text is the names joined by commas plus one trailing comma |
| Format.CulpritsSplitBack | src/main/java/com/opsgenie/integration/jenkins/OpsGenieNotificationService.java:273-279 | splitting the culprit text on commas recovers the names when none contains a comma and the last is not empty |
| Format.FormatBuildVariables | src/main/java/com/opsgenie/integration/jenkins/OpsGenieNotificationService.java:193-202 | a build that is not an `AbstractBuild` gives ""; for an `AbstractBuild` the text is "" iff it has no variables |
| Format.BuildVariablesInOrder | src/main/java/com/opsgenie/integration/jenkins/OpsGenieNotificationService.java:195-199 | variable i's `key -> value` line sits between the lines of the variables before and after it |
| Payload.KeyNameInjective | src/main/java/com/opsgenie/integration/jenkins/OpsGenieNotificationService.java:281-309 | distinct payload keys have distinct names, so no entry overwrites another |
| Payload.MandatoryFields | src/main/java/com/opsgenie/integration/jenkins/OpsGenieNotificationService.java:281-309 | the eight mandatory keys are added and nothing else changes. Every other key keeps its earlier value |
| Payload.MandatoryFieldValues | src/main/java/com/opsgenie/integration/jenkins/OpsGenieNotificationService.java:281-309 | time, project and display names and start time are copied. A build without a result reports SUCCESS. The url is the Jenkins root URL (or "null") followed by the build URL. Tags and teams are their split strings |
| Build.ResultKind.Name | src/main/java/com/opsgenie/integration/jenkins/OpsGenieNotificationService.java:296 | `Result.toString()`, used for status here and for previousStatus at line 243, gives a non-empty name of upper-case letters and underscores; Build.NameInjective shows distinct results get distinct names |
| Build.NameInjective | src/main/java/com/opsgenie/integration/jenkins/OpsGenieNotificationService.java:243 | distinct results have distinct names, so the reported status identifies the result |
| Payload.StatusSuccessExactly | src/main/java/com/opsgenie/integration/jenkins/OpsGenieNotificationService.java:291-296 | status is "SUCCESS" iff the build has no result yet or succeeded |
| Payload.PreBuildPayload | src/main/java/com/opsgenie/integration/jenkins/OpsGenieNotificationService.java:140-148 | a pre-build send adds exactly the mandatory keys, isPreBuild, and priority when a build-start priority is set. Every other key keeps its earlier value |
| Payload.PreBuildEntries | src/main/java/com/opsgenie/integration/jenkins/OpsGenieNotificationService.java:142-148 | pre-build puts the mandatory values and isPreBuild "true". It puts the build-start priority only when set; otherwise an earlier priority stays as it was |
| Payload.AfterBuildPayload | src/main/java/com/opsgenie/integration/jenkins/OpsGenieNotificationService.java:204-258 | a post-build send adds exactly the keys its conditions select. Every other key keeps its earlier value |
| Payload.AfterBuildClosingEntries | src/main/java/com/opsgenie/integration/jenkins/OpsGenieNotificationService.java:252-254 | post-build always puts isPreBuild "false", the duration and the formatted build variables |
| Payload.AfterBuildPriority | src/main/java/com/opsgenie/integration/jenkins/OpsGenieNotificationService.java:256-258 | post-build puts the priority only when one is set; otherwise an earlier priority stays as it was |
| Payload.AfterBuildCulprits | src/main/java/com/opsgenie/integration/jenkins/OpsGenieNotificationService.java:207-213 | culprits is put iff the build is an `AbstractBuild`, failing or unstable, with culprits; its value is the formatted list |
| Payload.AfterBuildTestCounts | src/main/java/com/opsgenie/integration/jenkins/OpsGenieNotificationService.java:218-224 | with a test summary, the passed count (total less failed and skipped), failed and skipped counts are put as decimal text |
| Payload.AfterBuildFailedTests | src/main/java/com/opsgenie/integration/jenkins/OpsGenieNotificationService.java:226-229 | failedTests is put iff there is a test summary and the build is failing or unstable; its value is the formatted list |
| Payload.AfterBuildNoTestSummary | src/main/java/com/opsgenie/integration/jenkins/OpsGenieNotificationService.java:217-230 | without a test summary no test key is added or changed |
| Payload.TestCountsAddUp | src/main/java/com/opsgenie/integration/jenkins/OpsGenieNotificationService.java:216-224 | the three count texts read back as numbers; failed and skipped are the summary's, and the three add up to the total |
| Payload.AfterBuildCommitList | src/main/java/com/opsgenie/integration/jenkins/OpsGenieNotificationService.java:232-234 | commitList is put iff the build is an `AbstractBuild`; its value is the formatted change set |
| Payload.AfterBuildPrevious | src/main/java/com/opsgenie/integration/jenkins/OpsGenieNotificationService.java:235-240 | with a previous build, its display name and time are put |
| Payload.AfterBuildPreviousStatus | src/main/java/com/opsgenie/integration/jenkins/OpsGenieNotificationService.java:241-244 | previousStatus is put iff there is a previous build with a result; its value is that result's name |
| Payload.AfterBuildPreviousProject | src/main/java/com/opsgenie/integration/jenkins/OpsGenieNotificationService.java:245-249 | previousProjectName is put iff the previous build's project is known; its value is that name |
| Payload.AfterBuildNoPrevious | src/main/java/com/opsgenie/integration/jenkins/OpsGenieNotificationService.java:235-250 | without a previous build no previous-build key is added or changed |
| Payload.SendsShareMandatoryFields | src/main/java/com/opsgenie/integration/jenkins/OpsGenieNotificationService.java:140-142 | both sends put the same value under each mandatory key, whatever the map held before |
| Delivery.ResolveTarget | src/main/java/com/opsgenie/integration/jenkins/OpsGenieNotificationService.java:83-100 | the `URIBuilder` arguments exist iff the URL is non-null and parses. An absolute URI supplies scheme and host; otherwise it is https with the whole URL as host. The path argument is always /v1/json/jenkins and apiKey is the only query parameter |
| Delivery.IsHostExcluded | src/main/java/com/opsgenie/integration/jenkins/OpsGenieNotificationService.java:113-118 | the host is excluded iff some no-proxy pattern matches it |
| Delivery.ProxyFor | src/main/java/com/opsgenie/integration/jenkins/OpsGenieNotificationService.java:108-127 | the configured proxy (name, port) is used iff one is configured and no no-proxy pattern matches the host |
| Delivery.PreparePost | src/main/java/com/opsgenie/integration/jenkins/OpsGenieNotificationService.java:95-127 | a request is prepared iff the target resolves. It goes to that target, through the proxy decision for its host, with the form content type and the given body |
| Delivery.Deliver | src/main/java/com/opsgenie/integration/jenkins/OpsGenieNotificationService.java:129-137 | a request that was never prepared gets the reply "" |
| Delivery.CheckResponse | src/main/java/com/opsgenie/integration/jenkins/OpsGenieNotificationService.java:63-79 | a readable reply succeeds iff its error is null or empty; an unreadable reply succeeds iff it is not empty |
| Delivery.UnsentRequestFails | src/main/java/com/opsgenie/integration/jenkins/OpsGenieNotificationService.java:81-138 | with a null or unparsable URL the send reports failure, provided "" is not readable JSON |
| Delivery.BareHostUsesHttps | src/main/java/com/opsgenie/integration/jenkins/OpsGenieNotificationService.java:87-100 | a URL without a scheme becomes https://URL/v1/json/jenkins?apiKey=KEY |
| Service.NewService | src/main/java/com/opsgenie/integration/jenkins/OpsGenieNotificationService.java:50-61 | a new instance starts with an empty payload map and no sends |
| Service.Body | src/main/java/com/opsgenie/integration/jenkins/OpsGenieNotificationService.java:150-156 | the posted body is the serialised map, or "" when serialisation throws, as lines 150-156 and 260-266 give |
| Service.PostAndCheck | src/main/java/com/opsgenie/integration/jenkins/OpsGenieNotificationService.java:150-159 | with a null or unparsable API URL nothing is posted, and the send fails whenever "" is not readable JSON |
| Service.PostedBody | src/main/java/com/opsgenie/integration/jenkins/OpsGenieNotificationService.java:150-159 | with a usable API URL, the post carries the serialised map, or "" when serialisation throws, and the send's outcome is `checkResponse` of the transport's reply to that post, as lines 150-159 and 260-269 do |
| Service.SendPreBuildPayload | src/main/java/com/opsgenie/integration/jenkins/OpsGenieNotificationService.java:140-160 | the instance's map becomes the pre-build payload of the map it held, the model's own `sent` record (kept only so that "exactly one send" can be stated; the source keeps no such record) gains one pre-build entry, and the outcome is the reply check of posting it |
| Service.SendAfterBuildData | src/main/java/com/opsgenie/integration/jenkins/OpsGenieNotificationService.java:204-270 | the same for the post-build payload, with one post-build entry added to the `sent` record |
| Service.StalePriorityOutlivesPreBuild | src/main/java/com/opsgenie/integration/jenkins/OpsGenieNotificationService.java:256-258 | on one instance, a build-start priority put before the build is still sent after it when no post-build priority is set |
| Service.SendsOnlyAdd | src/main/java/com/opsgenie/integration/jenkins/OpsGenieNotificationService.java:204-258 | no send removes a key from the instance's map |
| Service.EmptyReplyFails | src/main/java/com/opsgenie/integration/jenkins/OpsGenieNotificationService.java:63-79 | when every exchange yields "" and "" is not readable JSON, both sends report failure |
| TriggerStep.FixNull | src/main/java/com/opsgenie/integration/jenkins/pipeline/OpsGenieTriggerStep.java:162-171 | `Util.fixNull` gives the value itself when non-null and "" for null, so its result is empty iff the value is null or empty |
| TriggerStep.OverrideOrDefault | src/main/java/com/opsgenie/integration/jenkins/pipeline/OpsGenieTriggerStep.java:162 | a step value is used iff it is non-null and non-empty; otherwise the global value is |
| TriggerStep.ResolveRequest | src/main/java/com/opsgenie/integration/jenkins/pipeline/OpsGenieTriggerStep.java:161-174 | tags, teams, API key and API URL each follow the override-or-default rule, in both directions. The two priorities come from the step's values alone. The build is the step's build |
| TriggerStep.WhitespaceOverridesDefault | src/main/java/com/opsgenie/integration/jenkins/pipeline/OpsGenieTriggerStep.java:162-171 | a whitespace-only step value still overrides the global one |
| TriggerStep.PrioritiesIgnoreDefaults | src/main/java/com/opsgenie/integration/jenkins/pipeline/OpsGenieTriggerStep.java:165-168 | runs differing only in global settings resolve the same priorities |
| TriggerStep.RunStep | src/main/java/com/opsgenie/integration/jenkins/pipeline/OpsGenieTriggerStep.java:173-179 | a run makes exactly one send, a post-build one, from a fresh instance built on the resolved request, and returns null |
| TriggerStep.RunIgnoresEnableFlags | src/main/java/com/opsgenie/integration/jenkins/pipeline/OpsGenieTriggerStep.java:144-180 | the step's enable and notifyBuildStart flags do not change what a run sends |

## Left out

- HTTP execution (`HttpClient`, `client.execute`, reading the entity) is the `transport` input. A failing call is a transport that returns "".
- Delivery.ResolveTarget: the target holds the scheme, host, path and query handed to `URIBuilder` (lines 95-99). `build()` at line 100 re-parses them as one string, with the host unescaped, so a bare URL containing '/' ends up with a different host and path there. `build()` can also throw `URISyntaxException`, which the catch at line 133 turns into the reply "". Neither the re-parse nor that second failure is modelled.
- Delivery.PreparePost: the body is carried as the serialised text. `new StringEntity(data)` encodes it as ISO-8859-1, so characters outside Latin-1 go out as '?'; that encoding is not modelled.
- Jackson serialisation and pretty-printing are the `serialize` input; a failure gives the empty body. Reading the reply's `error` field is the `parse` input.
- Console and slf4j logging are left out: they do not affect any result.
- `java.net.URI` parsing and no-proxy regex matching are the `parseUri` and `matches` inputs. An absolute URI without a host (`getHost()` returning null) is not distinguished from one with a host.
- `Jenkins.getInstance()`, the descriptor lookup and `JenkinsLocationConfiguration` become plain inputs: the proxy option, the global defaults and the root URL. The step's guard against a failing `Jenkins.getInstance()` (returning null early) is not modelled.
- Date, start-time and duration rendering are opaque strings on the snapshot.
- `AlertPriority.fromDisplayName` and `getValue()` are the `fromDisplayName` input, and a priority is an optional string. `AlertProperties`, `OpsGenieNotifier` and the step's setters are not part of this model.
- Culprits come from a `Set<User>` and build variables from a `Map`; both are modelled as sequences in their iteration order, which the model takes as given.
- Payload.AfterBuildPayload: under failedTests the source puts the `StringBuilder` itself, not its string. The model stores the built text, assuming the serialiser writes the builder as its text.
- JavaText.IntToStringRoundTrip: `Integer.toString` and the passed-count subtraction are on unbounded integers; Java's 32-bit wrap-around is not modelled.
- Payload.MandatoryFieldValues: project name, display name and build URL are taken as non-null strings. Only the Jenkins root URL is modelled as possibly null (rendered "null").
- Null text fields: the commit message, the author's display name, the failed test's full name and build-variable keys and values are non-null strings. In the source a null one is rendered as "null" by `StringBuilder.append` and `%s` (lines 170-172, 182 and 198); that rendering is not modelled.
- Format.FailedTestEntry: `%n` is fixed to "\n"; the platform line separator is not modelled.

=== FILE: build.dfy ===
/**
 An immutable snapshot of the Jenkins build a notification is about: the
 parts of `Run`/`AbstractBuild`, its test-result action and its previous
 build that the payload is built from.
 */
module Build {
  import opened Wrappers

  /** Jenkins' `hudson.model.Result`. */
  datatype ResultKind = Success | Unstable | Failure | NotBuilt | Aborted {

    /** `Result.toString()`: the result's name, in upper-case letters and underscores. */
    function Name(): (r: string)
      ensures |r| > 0 && forall i :: 0 <= i < |r| ==> 'A' <= r[i] <= 'Z' || r[i] == '_'
    {
      match this
      case Success => "SUCCESS"
      case Unstable => "UNSTABLE"
      case Failure => "FAILURE"
      case NotBuilt => "NOT_BUILT"
      case Aborted => "ABORTED"
    }
  }

  /** A result of FAILURE or UNSTABLE: the cases that report culprits and failed tests. */
  predicate IsFailing(result: Option<ResultKind>) {
    result == Some(Failure) || result == Some(Unstable)
  }

  /** A failed test case: its full name and its error details, which may be null. */
  datatype FailedTest = FailedTest(fullName: string, errorDetails: Option<string>)

  /** The build's `AbstractTestResultAction`: counts and the failed tests in report order. */
  datatype TestSummary = TestSummary(
    totalCount: int,
    failCount: int,
    skipCount: int,
    failedTests: seq<FailedTest>)

  /** One change-log entry: the commit message and the author's display name. */
  datatype ChangeEntry = ChangeEntry(msg: string, authorDisplayName: string)

  /** What the post-build payload reads from the previous build. Its parent
      project may be missing, and so may its result. */
  datatype PreviousBuild = PreviousBuild(
    displayName: string,
    time: string,
    result: Option<ResultKind>,
    projectName: Option<string>)

  /** The build being reported. `result` is None while the build runs. The
      culprits, change set and build variables exist only for an
      `AbstractBuild` (`isAbstractBuild`); they are ignored otherwise. The
      time, start time, duration and relative URL are already rendered. */
  datatype BuildSnapshot = BuildSnapshot(
    result: Option<ResultKind>,
    isAbstractBuild: bool,
    projectName: string,
    displayName: string,
    time: string,
    startTimeInMillis: string,
    duration: string,
    url: string,
    culprits: seq<string>,
    testSummary: Option<TestSummary>,
    changeSet: seq<ChangeEntry>,
    buildVariables: seq<(string, string)>,
    previous: Option<PreviousBuild>)

  /** Distinct results have distinct names, so the reported status identifies the result. */
  lemma NameInjective(a: ResultKind, b: ResultKind)
    ensures a.Name() == b.Name() ==> a == b
  {
  }
}

=== FILE: comma_list.dfy ===
/**
 The tag and team lists: a comma-delimited string is trimmed, split with
 Java's `String.split(",")`, and every token is trimmed again.
 */
module CommaList {
  import opened Wrappers
  import opened JavaText

  predicate CommaFree(s: string) {
    forall i :: 0 <= i < |s| ==> s[i] != ','
  }

  /** Every comma-delimited piece of `s`, empty ones included: the pieces before
      `String.split` discards trailing empties. */
  function Pieces(s: string): (ps: seq<string>)
    ensures |ps| >= 1
    ensures forall i :: 0 <= i < |ps| ==> CommaFree(ps[i])
    ensures |ps| == 1 <==> CommaFree(s)
    ensures CommaFree(s) ==> ps == [s]
    decreases |s|
  {
    if |s| == 0 then [""]
    else if s[0] == ',' then [""] + Pieces(s[1..])
    else
      var rest := Pieces(s[1..]);
      assert CommaFree(s) <==> CommaFree(s[1..]);
      assert [s[0]] + s[1..] == s;
      [[s[0]] + rest[0]] + rest[1..]
  }

  /** A string with no trimmable character splits into pieces with none either. */
  lemma {:induction false} PiecesHaveNoTrimmable(s: string)
    requires HasNoTrimmable(s)
    ensures forall i :: 0 <= i < |Pieces(s)| ==> HasNoTrimmable(Pieces(s)[i])
    decreases |s|
  {
    if |s| > 0 {
      PiecesHaveNoTrimmable(s[1..]);
    }
  }

  /** The tokens written back with a comma between each two. */
  function Join(ts: seq<string>): string {
    if |ts| == 0 then ""
    else if |ts| == 1 then ts[0]
    else ts[0] + "," + Join(ts[1..])
  }

  /** Drops the empty strings at the end of `ps`, as `split` with limit 0 does. */
  function DropTrailingEmpty(ps: seq<string>): (r: seq<string>)
    ensures |r| <= |ps| && r == ps[..|r|]
    ensures forall i :: |r| <= i < |ps| ==> ps[i] == ""
    ensures |r| > 0 ==> r[|r| - 1] != ""
    decreases |ps|
  {
    if |ps| > 0 && ps[|ps| - 1] == "" then DropTrailingEmpty(ps[..|ps| - 1]) else ps
  }

  /** Java's `s.split(",")`: with no comma the whole string (so "" gives [""]);
      otherwise the pieces in order with the trailing empty ones dropped. */
  function SplitOnComma(s: string): (r: seq<string>)
    ensures forall i :: 0 <= i < |r| ==> CommaFree(r[i])
    ensures CommaFree(s) ==> r == [s]
  {
    if CommaFree(s) then [s] else DropTrailingEmpty(Pieces(s))
  }

  /** With a comma present, the split is the pieces up to the last non-empty one. */
  lemma SplitKeepsPiecesToLastNonEmpty(s: string)
    requires !CommaFree(s)
    ensures var r := SplitOnComma(s);
      && |r| <= |Pieces(s)| && r == Pieces(s)[..|r|]
      && (forall i :: |r| <= i < |Pieces(s)| ==> Pieces(s)[i] == "")
      && (|r| > 0 ==> r[|r| - 1] != "")
  {
  }

  /** `splitStringWithComma`: null gives no tokens; otherwise the trimmed input
      is split on commas and each token trimmed, in order. */
  function SplitStringWithComma(unparsed: Option<string>): (tokens: seq<string>)
    ensures unparsed.None? ==> tokens == []
    ensures forall i :: 0 <= i < |tokens| ==> IsTrimmed(tokens[i]) && CommaFree(tokens[i])
    ensures unparsed.Some? ==>
      var parts := SplitOnComma(Trim(unparsed.value));
      |tokens| == |parts| && forall i :: 0 <= i < |parts| ==> tokens[i] == Trim(parts[i])
  {
    match unparsed
    case None => []
    case Some(u) =>
      var parts := SplitOnComma(Trim(u));
      TrimEachKeepsCommaFree(parts);
      TrimEach(parts)
  }

  /** An empty (non-null) tag list is not "no tags": it yields one empty token. */
  lemma EmptyInputGivesOneEmptyToken()
    ensures SplitStringWithComma(Some("")) == [""]
  {
    assert Trim("") == "";
    assert SplitOnComma("") == [""];
    assert TrimEach([""])[0] == Trim("") == "";
  }

  /** Each token trimmed, order kept. */
  function TrimEach(ps: seq<string>): (r: seq<string>)
    ensures |r| == |ps|
    ensures forall i :: 0 <= i < |r| ==> r[i] == Trim(ps[i])
  {
    seq(|ps|, i requires 0 <= i < |ps| => Trim(ps[i]))
  }

  lemma {:induction false} TrimEachKeepsCommaFree(ps: seq<string>)
    requires forall i :: 0 <= i < |ps| ==> CommaFree(ps[i])
    ensures forall i :: 0 <= i < |ps| ==> CommaFree(TrimEach(ps)[i])
  {
    forall i | 0 <= i < |ps|
      ensures CommaFree(Trim(ps[i]))
    {
      TrimKeepsMiddle(ps[i]);
    }
  }

  // ---- Pieces and Join are inverse ----

  lemma {:induction false} JoinPieces(s: string)
    ensures Join(Pieces(s)) == s
    decreases |s|
  {
    if |s| == 0 {
    } else if s[0] == ',' {
      var rest := Pieces(s[1..]);
      JoinPieces(s[1..]);
      assert ([""] + rest)[1..] == rest;
      assert s == "," + s[1..];
    } else {
      var rest := Pieces(s[1..]);
      JoinPieces(s[1..]);
      var ps := [[s[0]] + rest[0]] + rest[1..];
      assert s == [s[0]] + s[1..];
      if |rest| > 1 {
        assert ps[1..] == rest[1..];
      }
    }
  }

  lemma {:induction false} PiecesPrepend(t: string, r: string)
    requires CommaFree(t)
    ensures Pieces(t + "," + r) == [t] + Pieces(r)
    decreases |t|
  {
    var s := t + "," + r;
    if |t| == 0 {
      assert s[1..] == r;
    } else {
      assert s[1..] == t[1..] + "," + r;
      PiecesPrepend(t[1..], r);
      assert [t[0]] + t[1..] == t;
    }
  }

  lemma Associative<T>(a: seq<T>, b: seq<T>, c: seq<T>)
    ensures (a + b) + c == a + (b + c)
  {
  }

  /** Splitting the joined text of comma-free tokens gives the tokens back, followed
      by the pieces of whatever follows the next comma. */
  lemma {:induction false} PiecesOfJoinThen(ts: seq<string>, r: string)
    requires |ts| > 0
    requires forall i :: 0 <= i < |ts| ==> CommaFree(ts[i])
    ensures Pieces(Join(ts) + "," + r) == ts + Pieces(r)
    decreases |ts|
  {
    if |ts| == 1 {
      PiecesPrepend(ts[0], r);
    } else {
      var head, rest := ts[0], ts[1..];
      var tail := Join(rest);
      var after := tail + "," + r;
      assert Join(ts) == (head + ",") + tail;
      assert Join(ts) + "," + r == (head + ",") + after by {
        Associative((head + ","), tail, ",");
        Associative((head + ","), tail + ",", r);
      }
      PiecesPrepend(head, after);
      PiecesOfJoinThen(rest, r);
      assert ts == [head] + rest;
      Associative([head], rest, Pieces(r));
    }
  }

  lemma {:induction false} PiecesOfJoin(ts: seq<string>)
    requires |ts| > 0
    requires forall i :: 0 <= i < |ts| ==> CommaFree(ts[i])
    ensures Pieces(Join(ts)) == ts
  {
    if |ts| == 1 {
    } else {
      PiecesOfJoinThen([ts[0]], Join(ts[1..]));
      PiecesOfJoin(ts[1..]);
      assert ts == [ts[0]] + ts[1..];
    }
  }

  /** A string not ending in a comma has a non-empty last piece. */
  lemma {:induction false} LastPieceNonEmpty(s: string)
    requires |s| > 0 && s[|s| - 1] != ','
    ensures Pieces(s)[|Pieces(s)| - 1] != ""
    decreases |s|
  {
    if |s| > 1 {
      LastPieceNonEmpty(s[1..]);
    }
  }

  lemma {:induction false} JoinLast(ts: seq<string>)
    requires |ts| >= 2
    ensures Join(ts) == Join(ts[..|ts| - 1]) + "," + ts[|ts| - 1]
    decreases |ts|
  {
    if |ts| > 2 {
      JoinLast(ts[1..]);
      assert ts[1..][..|ts| - 2] == ts[..|ts| - 1][1..];
    }
  }

  // ---- The tag/team splitter round-trips ----

  lemma NoTrimmableIsTrimmed(s: string)
    requires HasNoTrimmable(s)
    ensures IsTrimmed(s)
  {
  }

  /** When the trimmed input splits into already-trimmed parts, those parts are the tokens. */
  lemma {:induction false} TokensOfTrimmedParts(u: string, parts: seq<string>)
    requires SplitOnComma(Trim(u)) == parts
    requires forall i :: 0 <= i < |parts| ==> IsTrimmed(parts[i])
    ensures SplitStringWithComma(Some(u)) == parts
  {
    var tokens := SplitStringWithComma(Some(u));
    assert |tokens| == |parts|;
    forall i | 0 <= i < |parts|
      ensures tokens[i] == parts[i]
    {
      assert tokens[i] == Trim(parts[i]);
    }
  }

  /** An input with no character at or below U+0020 that does not end in a comma is recovered
      by joining its tokens with commas. */
  lemma {:induction false} SplitThenJoin(u: string)
    requires HasNoTrimmable(u)
    requires |u| == 0 || u[|u| - 1] != ','
    ensures Join(SplitStringWithComma(Some(u))) == u
  {
    NoTrimmableIsTrimmed(u);
    assert Trim(u) == u;
    if CommaFree(u) {
      assert SplitOnComma(u) == [u];
      TokensOfTrimmedParts(u, [u]);
    } else {
      var ps := Pieces(u);
      LastPieceNonEmpty(u);
      assert DropTrailingEmpty(ps) == ps;
      assert SplitOnComma(u) == ps;
      PiecesHaveNoTrimmable(u);
      forall i | 0 <= i < |ps|
        ensures IsTrimmed(ps[i])
      {
        NoTrimmableIsTrimmed(ps[i]);
      }
      TokensOfTrimmedParts(u, ps);
      JoinPieces(u);
    }
  }

  /** Text joined from several tokens has a comma right after the first token, and
      starts with that token's first character, or with the comma when it is empty. */
  lemma {:induction false} JoinStart(ts: seq<string>)
    requires |ts| >= 2
    ensures |Join(ts)| > |ts[0]| && Join(ts)[|ts[0]|] == ','
    ensures Join(ts)[0] == if ts[0] == "" then ',' else ts[0][0]
  {
    var first := ts[0] + ",";
    assert Join(ts) == first + Join(ts[1..]);
  }

  /** Text joined from several tokens ends with the last character of a non-empty last token. */
  lemma {:induction false} JoinEnd(ts: seq<string>)
    requires |ts| >= 2
    requires ts[|ts| - 1] != ""
    ensures var last := ts[|ts| - 1]; Join(ts)[|Join(ts)| - 1] == last[|last| - 1]
  {
    JoinLast(ts);
    var last := ts[|ts| - 1];
    assert Join(ts) == (Join(ts[..|ts| - 1]) + ",") + last;
  }

  /** Text joined from trimmed tokens is itself trimmed when the last token of several is not empty. */
  lemma {:induction false} JoinIsTrimmed(ts: seq<string>)
    requires |ts| >= 2
    requires forall i :: 0 <= i < |ts| ==> IsTrimmed(ts[i])
    requires ts[|ts| - 1] != ""
    ensures IsTrimmed(Join(ts)) && !CommaFree(Join(ts))
  {
    JoinStart(ts);
    JoinEnd(ts);
    assert IsTrimmed(ts[0]) && IsTrimmed(ts[|ts| - 1]);
  }

  /** A single trimmed, comma-free token is its own split. */
  lemma {:induction false} SingleTokenSplit(ts: seq<string>)
    requires |ts| == 1 && IsTrimmed(ts[0]) && CommaFree(ts[0])
    ensures SplitStringWithComma(Some(Join(ts))) == ts
  {
    var t := ts[0];
    assert Join(ts) == t;
    assert Trim(t) == t;
    assert SplitOnComma(t) == [t] == ts;
    TokensOfTrimmedParts(t, ts);
  }

  /** Several tokens whose last is not empty are their own split once joined. */
  lemma {:induction false} SeveralTokensSplit(ts: seq<string>)
    requires |ts| >= 2
    requires forall i :: 0 <= i < |ts| ==> IsTrimmed(ts[i]) && CommaFree(ts[i])
    requires ts[|ts| - 1] != ""
    ensures SplitStringWithComma(Some(Join(ts))) == ts
  {
    var j := Join(ts);
    JoinIsTrimmed(ts);
    assert Trim(j) == j;
    PiecesOfJoin(ts);
    assert DropTrailingEmpty(ts) == ts;
    assert SplitOnComma(j) == ts;
    TokensOfTrimmedParts(j, ts);
  }

  /** Joining trimmed, comma-free tokens and splitting again gives the tokens
      back, unless there are several and the last is empty: "a, ," splits into
      "a" and "", whose join "a," splits into "a" alone. */
  lemma {:induction false} JoinThenSplit(ts: seq<string>)
    requires |ts| > 0
    requires forall i :: 0 <= i < |ts| ==> IsTrimmed(ts[i]) && CommaFree(ts[i])
    requires |ts| == 1 || ts[|ts| - 1] != ""
    ensures SplitStringWithComma(Some(Join(ts))) == ts
  {
    if |ts| == 1 {
      SingleTokenSplit(ts);
    } else {
      SeveralTokensSplit(ts);
    }
  }
}

=== FILE: delivery.dfy ===
/**
 Delivery of a serialised payload: where the POST goes, whether it goes
 through the Jenkins proxy, and how the reply is judged. URI parsing,
 pattern matching, the HTTP exchange and JSON reading are library calls and
 are passed in as functions.
 */
module Delivery {
  import opened Wrappers

  const IntegrationPath: string := "/v1/json/jenkins"

  /** Sent as the content-type header although the body is JSON. */
  const FormContentType: string := "application/x-www-form-urlencoded"

  /** What `java.net.URI` reports about a parsed API URL. */
  datatype Uri = Uri(isAbsolute: bool, scheme: string, host: string)

  /** The pieces `sendWebhookToOpsGenie` hands to `URIBuilder`: scheme, host, path
      and query parameters. The URI `build()` assembles from them is not modelled. */
  datatype Target = Target(scheme: string, host: string, path: string, query: seq<(string, Option<string>)>)

  /** Jenkins' `ProxyConfiguration`: proxy host name, port and the no-proxy host patterns. */
  datatype ProxyConfiguration = ProxyConfiguration(name: string, port: int, noProxyHostPatterns: seq<string>)

  /** A prepared POST: target, the proxy it is routed through if any, content type and body. */
  datatype Post = Post(target: Target, proxy: Option<(string, int)>, contentType: string, body: string)

  /** The target of `sendWebhookToOpsGenie`. None when the URL is null or `new URI`
      rejects it: the exception is caught and nothing is sent. */
  function ResolveTarget(apiUrl: Option<string>, apiKey: Option<string>, parseUri: string -> Option<Uri>)
    : (t: Option<Target>)
    ensures t.Some? <==> apiUrl.Some? && parseUri(apiUrl.value).Some?
    ensures t.Some? ==> t.value.path == IntegrationPath && t.value.query == [("apiKey", apiKey)]
    ensures t.Some? && parseUri(apiUrl.value).value.isAbsolute ==>
      var u := parseUri(apiUrl.value).value;
      t.value.scheme == u.scheme && t.value.host == u.host
    ensures t.Some? && !parseUri(apiUrl.value).value.isAbsolute ==>
      t.value.scheme == "https" && t.value.host == apiUrl.value
  {
    match apiUrl
    case None => None
    case Some(url) =>
      match parseUri(url)
      case None => None
      case Some(u) =>
        var scheme := if u.isAbsolute then u.scheme else "https";
        var host := if u.isAbsolute then u.host else url;
        Some(Target(scheme, host, IntegrationPath, [("apiKey", apiKey)]))
  }

  /** The loop over the no-proxy patterns: true once any pattern matches the whole host. */
  function IsHostExcluded(patterns: seq<string>, host: string, matches: (string, string) -> bool)
    : (excluded: bool)
    ensures excluded <==> exists i :: 0 <= i < |patterns| && matches(patterns[i], host)
  {
    if |patterns| == 0 then false
    else
      var last := |patterns| - 1;
      IsHostExcluded(patterns[..last], host, matches) || matches(patterns[last], host)
  }

  /** The proxy a request to `host` is routed through: the configured one, unless
      a no-proxy pattern matches the host. */
  function ProxyFor(proxy: Option<ProxyConfiguration>, host: string, matches: (string, string) -> bool)
    : (r: Option<(string, int)>)
    ensures r.Some? <==>
      proxy.Some? && forall i :: 0 <= i < |proxy.value.noProxyHostPatterns| ==>
                                   !matches(proxy.value.noProxyHostPatterns[i], host)
    ensures r.Some? ==> r.value == (proxy.value.name, proxy.value.port)
  {
    match proxy
    case None => None
    case Some(p) =>
      if IsHostExcluded(p.noProxyHostPatterns, host, matches) then None else Some((p.name, p.port))
  }

  /** The request `sendWebhookToOpsGenie` would execute, or None when it stops before sending. */
  function PreparePost(apiUrl: Option<string>, apiKey: Option<string>, body: string,
                       proxy: Option<ProxyConfiguration>,
                       parseUri: string -> Option<Uri>, matches: (string, string) -> bool)
    : (r: Option<Post>)
    ensures r.Some? <==> ResolveTarget(apiUrl, apiKey, parseUri).Some?
    ensures r.Some? ==>
      && r.value.target == ResolveTarget(apiUrl, apiKey, parseUri).value
      && r.value.proxy == ProxyFor(proxy, r.value.target.host, matches)
      && r.value.contentType == FormContentType
      && r.value.body == body
  {
    match ResolveTarget(apiUrl, apiKey, parseUri)
    case None => None
    case Some(t) => Some(Post(t, ProxyFor(proxy, t.host, matches), FormContentType, body))
  }

  /** The reply body: whatever the transport returns, or "" when nothing was sent. */
  function Deliver(post: Option<Post>, transport: Post -> string): (res: string)
    ensures post.None? ==> res == ""
  {
    match post
    case None => ""
    case Some(p) => transport(p)
  }

  /** `checkResponse`. `parse` reads the reply as JSON: None when that throws,
      otherwise the (possibly null) `error` field. */
  function CheckResponse(res: string, parse: string -> Option<Option<string>>): (ok: bool)
    ensures parse(res).Some? ==> (ok <==> parse(res).value.None? || parse(res).value.value == "")
    ensures parse(res).None? ==> (ok <==> res != "")
  {
    match parse(res)
    case Some(error) => error.None? || error.value == ""
    // The reply could not be read: any non-empty reply counts as delivered.
    case None => res != ""
  }

  /** A request that never leaves (null or unparsable URL) reports failure, as long
      as an empty reply is not readable JSON. */
  lemma UnsentRequestFails(apiUrl: Option<string>, apiKey: Option<string>, body: string,
                           proxy: Option<ProxyConfiguration>, parseUri: string -> Option<Uri>,
                           matches: (string, string) -> bool, transport: Post -> string,
                           parse: string -> Option<Option<string>>)
    requires apiUrl.None? || parseUri(apiUrl.value).None?
    requires parse("").None?
    ensures !CheckResponse(Deliver(PreparePost(apiUrl, apiKey, body, proxy, parseUri, matches), transport), parse)
  {
  }

  /** An API URL without a scheme is used whole as the host, over https. */
  lemma BareHostUsesHttps(host: string, apiKey: Option<string>, parseUri: string -> Option<Uri>)
    requires parseUri(host).Some? && !parseUri(host).value.isAbsolute
    ensures ResolveTarget(Some(host), apiKey, parseUri)
         == Some(Target("https", host, "/v1/json/jenkins", [("apiKey", apiKey)]))
  {
  }
}

=== FILE: format.dfy ===
/**
 The text fragments of the post-build payload: the commit list, the failed
 tests, the culprits and the build variables. Each is what a
 `StringBuilder` holds after one append per element.
 */
module Format {
  import opened Wrappers
  import opened JavaText
  import opened CommaList
  import opened Build

  /** The `%n` of `String.format`, fixed to a line feed here. */
  const LineSeparator: string := "\n"

  const NoChanges: string := "No changes.\n\n"

  // ---- commitList ----

  function CommitLine(e: ChangeEntry): string {
    e.msg + " - <strong>" + e.authorDisplayName + "</strong><br>\n"
  }

  /** `formatCommitList`: "No changes." for an empty change set, otherwise one line per entry. */
  function FormatCommitList(changes: seq<ChangeEntry>): (r: string)
    ensures |changes| == 0 ==> r == NoChanges
    ensures |changes| > 0 ==> r == ConcatMap(changes, CommitLine)
  {
    (if |changes| == 0 then NoChanges else "") + ConcatMap(changes, CommitLine)
  }

  /** The "No changes." text is given exactly for an empty change set: every
      entry line ends in `<br>` and a line feed, never in a blank line. */
  lemma {:induction false} NoChangesExactlyWhenEmpty(changes: seq<ChangeEntry>)
    ensures FormatCommitList(changes) == NoChanges <==> |changes| == 0
  {
    if |changes| > 0 {
      var i := |changes| - 1;
      ConcatMapAt(changes, i, CommitLine);
      assert ConcatMap(changes[i + 1..], CommitLine) == "";
      var pre, line := ConcatMap(changes[..i], CommitLine), CommitLine(changes[i]);
      var r := FormatCommitList(changes);
      assert r == pre + line;
      assert line[|line| - 2] == '>';
      assert r[|r| - 2] == '>';
    }
  }

  /** Entry `i`'s line appears after the lines of the entries before it and before those after it. */
  lemma {:induction false} CommitListInOrder(changes: seq<ChangeEntry>, i: int)
    requires 0 <= i < |changes|
    ensures FormatCommitList(changes)
         == ConcatMap(changes[..i], CommitLine) + CommitLine(changes[i])
            + ConcatMap(changes[i + 1..], CommitLine)
  {
    ConcatMapAt(changes, i, CommitLine);
  }

  // ---- failedTests ----

  /** One failed test: its name in bold, a line break, its details unless blank, then a blank line. */
  function FailedTestEntry(t: FailedTest): (r: string)
    ensures |r| >= 8 + |t.fullName| + 2
    ensures r[..8] == "<strong>" && r[8..8 + |t.fullName|] == t.fullName
    ensures r[|r| - 2..] == "\n\n"
    ensures IsBlank(t.errorDetails) ==> r == "<strong>" + t.fullName + "</strong>" + LineSeparator + "\n\n"
  {
    "<strong>" + t.fullName + "</strong>" + LineSeparator
      + (if IsBlank(t.errorDetails) then "" else t.errorDetails.value)
      + "\n\n"
  }

  /** `formatFailedTests`. */
  function FormatFailedTests(tests: seq<FailedTest>): (r: string)
    ensures r == "" <==> |tests| == 0
  {
    ConcatMap(tests, FailedTestEntry)
  }

  /** Blank error details are dropped: the entry is the same as for a test with none. */
  lemma BlankDetailsAreOmitted(name: string, details: string)
    requires IsBlank(Some(details))
    ensures FailedTestEntry(FailedTest(name, Some(details))) == FailedTestEntry(FailedTest(name, None))
  {
  }

  /** Non-blank details appear verbatim between the name line and the closing blank line. */
  lemma DetailsFollowName(t: FailedTest)
    requires !IsBlank(t.errorDetails)
    ensures FailedTestEntry(t)
         == "<strong>" + t.fullName + "</strong>" + LineSeparator + t.errorDetails.value + "\n\n"
  {
  }

  lemma {:induction false} FailedTestsInOrder(tests: seq<FailedTest>, i: int)
    requires 0 <= i < |tests|
    ensures FormatFailedTests(tests)
         == FormatFailedTests(tests[..i]) + FailedTestEntry(tests[i]) + FormatFailedTests(tests[i + 1..])
  {
    ConcatMapAt(tests, i, FailedTestEntry);
  }

  // ---- culprits ----

  function CulpritEntry(fullName: string): string {
    fullName + ","
  }

  /** `formatCulprits`: every full name followed by a comma. */
  function FormatCulprits(names: seq<string>): (r: string)
    ensures r == "" <==> |names| == 0
  {
    ConcatMap(names, CulpritEntry)
  }

  /** The culprit list is the names joined by commas, plus a trailing comma. */
  lemma {:induction false} CulpritsAreJoinedWithTrailingComma(names: seq<string>)
    requires |names| > 0
    ensures FormatCulprits(names) == Join(names) + ","
    decreases |names|
  {
    if |names| == 1 {
      assert ConcatMap(names[1..], CulpritEntry) == "";
    } else {
      CulpritsAreJoinedWithTrailingComma(names[1..]);
      var a, b := names[0], Join(names[1..]);
      assert FormatCulprits(names) == (a + ",") + (b + ",");
      assert Join(names) + "," == ((a + ",") + b) + ",";
    }
  }

  /** Splitting the culprit list on commas gives the names back, when no name
      contains a comma and the last one is not empty. */
  lemma {:induction false} CulpritsSplitBack(names: seq<string>)
    requires |names| > 0
    requires forall i :: 0 <= i < |names| ==> CommaFree(names[i])
    requires names[|names| - 1] != ""
    ensures SplitOnComma(FormatCulprits(names)) == names
  {
    CulpritsAreJoinedWithTrailingComma(names);
    var s := FormatCulprits(names);
    PiecesOfJoinThen(names, "");
    assert s == Join(names) + "," + "";
    assert Pieces(s) == names + [""];
    assert s[|s| - 1] == ',';
    var r := SplitOnComma(s);
    SplitKeepsPiecesToLastNonEmpty(s);
    assert Pieces(s)[|names| - 1] != "" && Pieces(s)[|names|] == "";
    assert r == (names + [""])[..|names|];
  }

  // ---- params ----

  function VariableLine(v: (string, string)): string {
    v.0 + " -> " + v.1 + "\n"
  }

  /** `formatBuildVariables`: one `key -> value` line per variable of an
      `AbstractBuild`, in the map's iteration order; empty for any other build. */
  function FormatBuildVariables(isAbstractBuild: bool, variables: seq<(string, string)>): (r: string)
    ensures !isAbstractBuild ==> r == ""
    ensures isAbstractBuild ==> (r == "" <==> |variables| == 0)
  {
    if isAbstractBuild then ConcatMap(variables, VariableLine) else ""
  }

  lemma {:induction false} BuildVariablesInOrder(variables: seq<(string, string)>, i: int)
    requires 0 <= i < |variables|
    ensures FormatBuildVariables(true, variables)
         == FormatBuildVariables(true, variables[..i]) + VariableLine(variables[i])
            + FormatBuildVariables(true, variables[i + 1..])
  {
    ConcatMapAt(variables, i, VariableLine);
  }
}

=== FILE: java_text.dfy ===
/**
 The few pieces of Java's string library the plugin relies on:
 `String.trim()`, `StringUtils.isBlank`, `Integer.toString`, the
 null-to-"null" rendering of string concatenation, and appending one
 rendered fragment per element to a `StringBuilder`.
 */
module JavaText {
  import opened Wrappers

  /** `String.trim()` removes every character at or below U+0020 from both ends. */
  predicate IsTrimmable(c: char) {
    c <= ' '
  }

  /** A string that `trim()` leaves unchanged. */
  predicate IsTrimmed(s: string) {
    |s| == 0 || (!IsTrimmable(s[0]) && !IsTrimmable(s[|s| - 1]))
  }

  /** No character of `s` is one that `trim()` would strip. */
  predicate HasNoTrimmable(s: string) {
    forall i :: 0 <= i < |s| ==> !IsTrimmable(s[i])
  }

  function TrimStart(s: string): (r: string)
    ensures |r| <= |s| && r == s[|s| - |r|..]
    ensures forall i :: 0 <= i < |s| - |r| ==> IsTrimmable(s[i])
    ensures |r| > 0 ==> !IsTrimmable(r[0])
    decreases |s|
  {
    if |s| > 0 && IsTrimmable(s[0]) then TrimStart(s[1..]) else s
  }

  function TrimEnd(s: string): (r: string)
    ensures |r| <= |s| && r == s[..|r|]
    ensures forall i :: |r| <= i < |s| ==> IsTrimmable(s[i])
    ensures |r| > 0 ==> !IsTrimmable(r[|r| - 1])
    decreases |s|
  {
    if |s| > 0 && IsTrimmable(s[|s| - 1]) then TrimEnd(s[..|s| - 1]) else s
  }

  /** Java's `String.trim()`: the part of `s` between its leading and trailing runs of
      trimmable characters. */
  function Trim(s: string): (r: string)
    ensures IsTrimmed(r)
    ensures |r| <= |s|
    ensures r == "" <==> forall i :: 0 <= i < |s| ==> IsTrimmable(s[i])
    ensures IsTrimmed(s) ==> r == s
  {
    TrimEnd(TrimStart(s))
  }

  /** What `trim()` keeps is a contiguous run of the original: the characters
      after the leading trimmable ones, and nothing past the trailing ones. */
  lemma TrimKeepsMiddle(s: string)
    ensures IsKeptRun(s, |s| - |TrimStart(s)|, Trim(s))
  {
    var t := TrimStart(s);
    var r := Trim(s);
    assert r == TrimEnd(t);
    KeptRun(s, t, r);
  }

  /** `r` is the run of `s` starting at index `k`, and every character of `s` after it is trimmable. */
  predicate IsKeptRun(s: string, k: int, r: string) {
    && 0 <= k && k + |r| <= |s|
    && (forall i :: 0 <= i < |r| ==> r[i] == s[k + i])
    && (forall i :: k + |r| <= i < |s| ==> IsTrimmable(s[i]))
  }

  /** A prefix `r` of a suffix `t` of `s` sits in `s` right where `t` starts, and
      when everything in `t` past `r` is trimmable, so is everything in `s` past `r`. */
  lemma KeptRun(s: string, t: string, r: string)
    requires |t| <= |s| && t == s[|s| - |t|..]
    requires |r| <= |t| && r == t[..|r|]
    requires forall i :: |r| <= i < |t| ==> IsTrimmable(t[i])
    ensures IsKeptRun(s, |s| - |t|, r)
  {
    var k := |s| - |t|;
    forall i | 0 <= i < |r|
      ensures r[i] == s[k + i]
    {
      assert r[i] == t[i];
      assert t[i] == s[k + i];
    }
    forall i | k + |r| <= i < |s|
      ensures IsTrimmable(s[i])
    {
      assert IsTrimmable(t[i - k]);
      assert t[i - k] == s[i];
    }
  }

  /** Java's `Character.isWhitespace` as of Java 9 (Unicode 6.3 and later):
      the space, line and paragraph separators except the no-break spaces,
      and the listed controls. U+180E, whitespace on Java 8, is not included. */
  predicate IsWhitespace(c: char) {
    || ('\t' <= c <= '\r')
    || ('\U{1C}' <= c <= ' ')
    || c == '\U{1680}'
    || ('\U{2000}' <= c <= '\U{2006}')
    || ('\U{2008}' <= c <= '\U{200A}')
    || c == '\U{2028}' || c == '\U{2029}'
    || c == '\U{205F}' || c == '\U{3000}'
  }

  /** `StringUtils.isBlank`: null, empty, or whitespace only. */
  predicate IsBlank(s: Option<string>) {
    s.None? || forall i :: 0 <= i < |s.value| ==> IsWhitespace(s.value[i])
  }

  /** `isBlank` and `trim` disagree on what is blank: a control character
      below the space is trimmed away but is not whitespace, and an em space
      is whitespace but is not trimmed. */
  lemma BlankIsNotTrimToEmpty()
    ensures !IsBlank(Some("\0")) && Trim("\0") == ""
    ensures IsBlank(Some("\U{2003}")) && Trim("\U{2003}") == "\U{2003}"
  {
    assert IsTrimmable("\0"[0]) && !IsWhitespace("\0"[0]);
  }

  /** How Java string concatenation and `Objects.toString` render a possibly-null string. */
  function NullToString(s: Option<string>): (r: string)
    ensures s.Some? ==> r == s.value
    ensures s.None? ==> r == "null"
  {
    s.GetOr("null")
  }

  /** The text a `StringBuilder` holds after appending `render(x)` for each `x` of `xs` in turn. */
  function ConcatMap<T>(xs: seq<T>, render: T -> string): string
  {
    if |xs| == 0 then "" else render(xs[0]) + ConcatMap(xs[1..], render)
  }

  lemma {:induction false} ConcatMapAppend<T>(xs: seq<T>, ys: seq<T>, render: T -> string)
    ensures ConcatMap(xs + ys, render) == ConcatMap(xs, render) + ConcatMap(ys, render)
    decreases |xs|
  {
    if |xs| == 0 {
      assert xs + ys == ys;
    } else {
      assert (xs + ys)[1..] == xs[1..] + ys;
      ConcatMapAppend(xs[1..], ys, render);
    }
  }

  lemma {:induction false} ConcatMapCons<T>(x: T, xs: seq<T>, render: T -> string)
    ensures ConcatMap([x] + xs, render) == render(x) + ConcatMap(xs, render)
  {
    assert ([x] + xs)[1..] == xs;
  }

  /** Element `i` is rendered exactly once, after every element before it and before every element after it. */
  lemma {:induction false} ConcatMapAt<T>(xs: seq<T>, i: int, render: T -> string)
    requires 0 <= i < |xs|
    ensures ConcatMap(xs, render)
         == ConcatMap(xs[..i], render) + render(xs[i]) + ConcatMap(xs[i + 1..], render)
  {
    var pre, post := xs[..i], xs[i + 1..];
    var rest := [xs[i]] + post;
    assert xs == pre + rest by {
      assert xs == xs[..i] + xs[i..];
      assert xs[i..] == rest;
    }
    ConcatMapAppend(pre, rest, render);
    ConcatMapCons(xs[i], post, render);
    var a, b, c := ConcatMap(pre, render), render(xs[i]), ConcatMap(post, render);
    assert a + (b + c) == (a + b) + c;
  }

  // ---- Integer.toString and a reference reader for its output ----

  function DigitChar(d: int): char
    requires 0 <= d < 10
  {
    "0123456789"[d]
  }

  predicate IsDigit(c: char) {
    '0' <= c <= '9'
  }

  function DigitValue(c: char): int
    requires IsDigit(c)
  {
    c as int - '0' as int
  }

  /** Decimal digits of a natural number, most significant first, without leading zeros. */
  function Digits(n: nat): (r: string)
    ensures |r| > 0
    ensures forall i :: 0 <= i < |r| ==> IsDigit(r[i])
    ensures r[0] == '0' <==> n == 0
  {
    if n < 10 then [DigitChar(n)] else Digits(n / 10) + [DigitChar(n % 10)]
  }

  /** Java's `Integer.toString` on an unbounded integer: a minus sign exactly
      for negative numbers, then decimal digits with no leading zero. */
  function IntToString(n: int): (r: string)
    ensures |r| > 0 && (r[0] == '-' <==> n < 0)
    ensures var d := if n < 0 then r[1..] else r;
      && |d| > 0
      && (forall i :: 0 <= i < |d| ==> IsDigit(d[i]))
      && (d[0] == '0' <==> n == 0)
  {
    if n < 0 then "-" + Digits(-n) else Digits(n)
  }

  /** Value of a non-empty run of decimal digits. */
  function DigitsValue(s: string): nat
    requires forall i :: 0 <= i < |s| ==> IsDigit(s[i])
  {
    if |s| == 0 then 0 else DigitsValue(s[..|s| - 1]) * 10 + DigitValue(s[|s| - 1])
  }

  /** Reads an optionally signed decimal integer; None for anything else. */
  function ParseInt(s: string): Option<int> {
    if |s| > 0 && s[0] == '-' then
      var d := s[1..];
      if |d| > 0 && forall i :: 0 <= i < |d| ==> IsDigit(d[i]) then Some(0 - DigitsValue(d)) else None
    else if |s| > 0 && forall i :: 0 <= i < |s| ==> IsDigit(s[i]) then Some(DigitsValue(s))
    else None
  }

  lemma DigitCharValue(d: int)
    requires 0 <= d < 10
    ensures IsDigit(DigitChar(d)) && DigitValue(DigitChar(d)) == d
  {
  }

  lemma {:induction false} DigitsRoundTrip(n: nat)
    ensures DigitsValue(Digits(n)) == n
  {
    if n < 10 {
      DigitCharValue(n);
      assert Digits(n) == [DigitChar(n)];
    } else {
      var q, d := n / 10, n % 10;
      DigitsRoundTrip(q);
      DigitCharValue(d);
      var s := Digits(n);
      assert s == Digits(q) + [DigitChar(d)];
      assert s[..|s| - 1] == Digits(q);
      assert DigitsValue(s) == DigitsValue(Digits(q)) * 10 + DigitValue(DigitChar(d));
      assert q * 10 + d == n;
    }
  }

  /** Zero is written as a single digit. */
  lemma IntToStringZero()
    ensures IntToString(0) == "0"
  {
  }

  /** What `Integer.toString` writes, reading it back gives the same number. */
  lemma IntToStringRoundTrip(n: int)
    ensures ParseInt(IntToString(n)) == Some(n)
  {
    DigitsRoundTrip(if n < 0 then -n else n);
    if n < 0 {
      assert IntToString(n)[1..] == Digits(-n);
    }
  }
}

=== FILE: payload.dfy ===
/**
 The notification document. The service keeps one key/value map per
 instance and only ever puts into it, so each send is modelled as the map
 before the send updated with the keys that send writes.
 */
module Payload {
  import opened Wrappers
  import opened JavaText
  import opened CommaList
  import opened Build
  import opened Format

  /** The keys the service writes; `Name` is the JSON key. */
  datatype Key =
    | Time | ProjectName | DisplayName | Status | Url | Tags | Teams | StartTimeInMillis
    | IsPreBuild | Priority | Duration | Params
    | Culprits | PassedTestCount | FailedTestCount | SkippedTestCount | FailedTests | CommitList
    | PreviousDisplayName | PreviousTime | PreviousStatus | PreviousProjectName
  {
    function Name(): string {
      match this
      case Time => "time"
      case ProjectName => "projectName"
      case DisplayName => "displayName"
      case Status => "status"
      case Url => "url"
      case Tags => "tags"
      case Teams => "teams"
      case StartTimeInMillis => "startTimeInMillis"
      case IsPreBuild => "isPreBuild"
      case Priority => "priority"
      case Duration => "duration"
      case Params => "params"
      case Culprits => "culprits"
      case PassedTestCount => "passedTestCount"
      case FailedTestCount => "failedTestCount"
      case SkippedTestCount => "skippedTestCount"
      case FailedTests => "failedTests"
      case CommitList => "commitList"
      case PreviousDisplayName => "previousDisplayName"
      case PreviousTime => "previousTime"
      case PreviousStatus => "previousStatus"
      case PreviousProjectName => "previousProjectName"
    }
  }

  /** Distinct keys have distinct names, so no two entries of the document collide. */
  lemma KeyNameInjective(a: Key, b: Key)
    ensures a.Name() == b.Name() ==> a == b
  {
  }

  /** A value in the document: a string or a list of strings (tags, teams). */
  datatype Value = Str(text: string) | Strs(items: seq<string>)

  type Payload = map<Key, Value>

  /** `AlertProperties`: raw tag and team strings, and the priority values for
      the post-build and the build-start notifications. Any may be null. */
  datatype AlertProperties = AlertProperties(
    tags: Option<string>,
    teams: Option<string>,
    priority: Option<string>,
    buildStartPriority: Option<string>)

  /** The eight keys both sends write. */
  predicate IsMandatory(k: Key) {
    match k
    case Time | ProjectName | DisplayName | Status | Url | Tags | Teams | StartTimeInMillis => true
    case _ => false
  }

  /** The map before a send, with `entries` put into it. Each send puts every
      key at most once, so the order of its puts does not matter. */
  function PutAll(prior: Payload, entries: Payload): Payload {
    prior + entries
  }

  /** What `populateRequestPayloadWithMandatoryFields` puts under mandatory key `k`. */
  function MandatoryValue(k: Key, b: BuildSnapshot, props: AlertProperties, baseUrl: Option<string>): Value
    requires IsMandatory(k)
  {
    match k
    case Time => Str(b.time)
    case ProjectName => Str(b.projectName)
    case DisplayName => Str(b.displayName)
    // A build that is still running has no result yet.
    case Status => Str(if b.result.None? then Success.Name() else b.result.value.Name())
    case Url => Str(NullToString(baseUrl) + b.url)
    case Tags => Strs(SplitStringWithComma(props.tags))
    case Teams => Strs(SplitStringWithComma(props.teams))
    case StartTimeInMillis => Str(b.startTimeInMillis)
  }

  /** `populateRequestPayloadWithMandatoryFields`. `baseUrl` is the Jenkins root
      URL from the location configuration; string concatenation renders a null one as "null". */
  function MandatoryFields(prior: Payload, b: BuildSnapshot, props: AlertProperties, baseUrl: Option<string>)
    : (p: Payload)
    ensures forall k :: k in p <==> k in prior || IsMandatory(k)
    ensures forall k :: k in prior && !IsMandatory(k) ==> k in p && p[k] == prior[k]
    ensures forall k :: IsMandatory(k) ==> k in p && p[k] == MandatoryValue(k, b, props, baseUrl)
  {
    PutAll(prior, map k: Key | IsMandatory(k) :: MandatoryValue(k, b, props, baseUrl))
  }

  /** The eight entries: build facts as text, the status of a build without a
      result reported as success, the URL under the Jenkins root, and the tag
      and team strings split into lists. */
  lemma MandatoryFieldValues(prior: Payload, b: BuildSnapshot, props: AlertProperties, baseUrl: Option<string>)
    ensures var p := MandatoryFields(prior, b, props, baseUrl);
      && p[Time] == Str(b.time)
      && p[ProjectName] == Str(b.projectName)
      && p[DisplayName] == Str(b.displayName)
      && p[Status] == Str((if b.result.None? then Success else b.result.value).Name())
      && p[Url] == Str(NullToString(baseUrl) + b.url)
      && p[Tags] == Strs(SplitStringWithComma(props.tags))
      && p[Teams] == Strs(SplitStringWithComma(props.teams))
      && p[StartTimeInMillis] == Str(b.startTimeInMillis)
  {
    var p := MandatoryFields(prior, b, props, baseUrl);
    assert IsMandatory(Time);
    assert p[Time] == Str(b.time);
    assert IsMandatory(ProjectName);
    assert p[ProjectName] == Str(b.projectName);
    assert IsMandatory(DisplayName);
    assert p[DisplayName] == Str(b.displayName);
    assert IsMandatory(Status);
    assert p[Status] == Str((if b.result.None? then Success else b.result.value).Name());
    assert IsMandatory(Url);
    assert p[Url] == Str(NullToString(baseUrl) + b.url);
    assert IsMandatory(Tags);
    assert p[Tags] == Strs(SplitStringWithComma(props.tags));
    assert IsMandatory(Teams);
    assert p[Teams] == Strs(SplitStringWithComma(props.teams));
    assert IsMandatory(StartTimeInMillis);
  }

  /** The status reads "SUCCESS" exactly when the build succeeded or has no result yet. */
  lemma StatusSuccessExactly(prior: Payload, b: BuildSnapshot, props: AlertProperties, baseUrl: Option<string>)
    ensures MandatoryFields(prior, b, props, baseUrl)[Status] == Str("SUCCESS")
        <==> b.result == None || b.result == Some(Success)
  {
    if b.result.Some? {
      NameInjective(b.result.value, Success);
    }
  }

  // ---- pre-build ----

  /** Whether a pre-build send puts key `k`. */
  predicate PreBuildWrites(k: Key, props: AlertProperties) {
    IsMandatory(k) || k == IsPreBuild || (k == Priority && props.buildStartPriority.Some?)
  }

  function PreBuildValue(k: Key, b: BuildSnapshot, props: AlertProperties, baseUrl: Option<string>): Value
    requires PreBuildWrites(k, props)
  {
    if IsMandatory(k) then MandatoryValue(k, b, props, baseUrl)
    else if k == IsPreBuild then Str("true")
    else Str(props.buildStartPriority.value)
  }

  /** `sendPreBuildPayload`, up to serialisation: the map before the send with
      the pre-build entries put into it. */
  function PreBuildPayload(prior: Payload, b: BuildSnapshot, props: AlertProperties, baseUrl: Option<string>)
    : (p: Payload)
    ensures forall k :: k in p <==> k in prior || PreBuildWrites(k, props)
    ensures forall k :: k in prior && !PreBuildWrites(k, props) ==> k in p && p[k] == prior[k]
    ensures forall k :: PreBuildWrites(k, props) ==> k in p && p[k] == PreBuildValue(k, b, props, baseUrl)
  {
    PutAll(prior, map k: Key | PreBuildWrites(k, props) :: PreBuildValue(k, b, props, baseUrl))
  }

  /** A pre-build send puts the mandatory entries, marks itself as pre-build, and
      puts the build-start priority only when one is configured. */
  lemma PreBuildEntries(prior: Payload, b: BuildSnapshot, props: AlertProperties, baseUrl: Option<string>, k: Key)
    ensures var p := PreBuildPayload(prior, b, props, baseUrl);
      && (IsMandatory(k) ==> p[k] == MandatoryValue(k, b, props, baseUrl))
      && p[IsPreBuild] == Str("true")
      && (props.buildStartPriority.Some? ==> p[Priority] == Str(props.buildStartPriority.value))
      && (props.buildStartPriority.None? ==> (Priority in p <==> Priority in prior))
      && (props.buildStartPriority.None? && Priority in prior ==> p[Priority] == prior[Priority])
  {
    assert PreBuildWrites(IsPreBuild, props);
    if props.buildStartPriority.Some? {
      assert PreBuildWrites(Priority, props);
    }
    if IsMandatory(k) {
      assert PreBuildWrites(k, props);
    }
  }

  // ---- post-build ----

  /** Culprits are reported for a failing or unstable `AbstractBuild` that has any. */
  predicate ReportsCulprits(b: BuildSnapshot) {
    b.isAbstractBuild && IsFailing(b.result) && |b.culprits| > 0
  }

  /** Whether a post-build send puts key `k`. */
  predicate AfterBuildWrites(k: Key, b: BuildSnapshot, props: AlertProperties) {
    match k
    case IsPreBuild | Duration | Params => true
    case Culprits => ReportsCulprits(b)
    case PassedTestCount | FailedTestCount | SkippedTestCount => b.testSummary.Some?
    case FailedTests => b.testSummary.Some? && IsFailing(b.result)
    case CommitList => b.isAbstractBuild
    case PreviousDisplayName | PreviousTime => b.previous.Some?
    case PreviousStatus => b.previous.Some? && b.previous.value.result.Some?
    case PreviousProjectName => b.previous.Some? && b.previous.value.projectName.Some?
    case Priority => props.priority.Some?
    case _ => IsMandatory(k)
  }

  /** What a post-build send puts under `k`. The passed count is the total
      less the failed and skipped counts. */
  function AfterBuildValue(k: Key, b: BuildSnapshot, props: AlertProperties, baseUrl: Option<string>): Value
    requires AfterBuildWrites(k, b, props)
  {
    match k
    case IsPreBuild => Str("false")
    case Duration => Str(b.duration)
    case Params => Str(FormatBuildVariables(b.isAbstractBuild, b.buildVariables))
    case Culprits => Str(FormatCulprits(b.culprits))
    case PassedTestCount =>
      var t := b.testSummary.value;
      Str(IntToString(t.totalCount - t.failCount - t.skipCount))
    case FailedTestCount => Str(IntToString(b.testSummary.value.failCount))
    case SkippedTestCount => Str(IntToString(b.testSummary.value.skipCount))
    case FailedTests => Str(FormatFailedTests(b.testSummary.value.failedTests))
    case CommitList => Str(FormatCommitList(b.changeSet))
    case PreviousDisplayName => Str(b.previous.value.displayName)
    case PreviousTime => Str(b.previous.value.time)
    case PreviousStatus => Str(b.previous.value.result.value.Name())
    case PreviousProjectName => Str(b.previous.value.projectName.value)
    case Priority => Str(props.priority.value)
    case _ => MandatoryValue(k, b, props, baseUrl)
  }

  /** `sendAfterBuildData`, up to serialisation: the map before the send with
      the post-build entries put into it. */
  function AfterBuildPayload(prior: Payload, b: BuildSnapshot, props: AlertProperties, baseUrl: Option<string>)
    : (p: Payload)
    ensures forall k :: k in p <==> k in prior || AfterBuildWrites(k, b, props)
    ensures forall k :: k in prior && !AfterBuildWrites(k, b, props) ==> k in p && p[k] == prior[k]
    ensures forall k :: AfterBuildWrites(k, b, props) ==> k in p && p[k] == AfterBuildValue(k, b, props, baseUrl)
  {
    PutAll(prior, map k: Key | AfterBuildWrites(k, b, props) :: AfterBuildValue(k, b, props, baseUrl))
  }

  /** A post-build send marks itself as not pre-build and always puts the
      duration and the build parameters. */
  lemma AfterBuildClosingEntries(prior: Payload, b: BuildSnapshot, props: AlertProperties, baseUrl: Option<string>)
    ensures var p := AfterBuildPayload(prior, b, props, baseUrl);
      && p[IsPreBuild] == Str("false")
      && p[Duration] == Str(b.duration)
      && p[Params] == Str(FormatBuildVariables(b.isAbstractBuild, b.buildVariables))
  {
    assert AfterBuildWrites(IsPreBuild, b, props);
    assert AfterBuildWrites(Duration, b, props);
    assert AfterBuildWrites(Params, b, props);
  }

  /** The post-build priority is put only when one is configured; otherwise
      whatever priority the map already held stays. */
  lemma AfterBuildPriority(prior: Payload, b: BuildSnapshot, props: AlertProperties, baseUrl: Option<string>)
    ensures var p := AfterBuildPayload(prior, b, props, baseUrl);
      && (props.priority.Some? ==> p[Priority] == Str(props.priority.value))
      && (props.priority.None? ==> (Priority in p <==> Priority in prior))
      && (props.priority.None? && Priority in prior ==> p[Priority] == prior[Priority])
  {
    if props.priority.Some? {
      assert AfterBuildWrites(Priority, b, props);
    }
  }

  /** The culprit list is put exactly for a failing or unstable `AbstractBuild` with culprits. */
  lemma AfterBuildCulprits(prior: Payload, b: BuildSnapshot, props: AlertProperties, baseUrl: Option<string>)
    ensures var p := AfterBuildPayload(prior, b, props, baseUrl);
      && (Culprits in p <==> Culprits in prior || ReportsCulprits(b))
      && (ReportsCulprits(b) ==> p[Culprits] == Str(FormatCulprits(b.culprits)))
  {
  }

  /** With a test summary, the passed, failed and skipped counts are put as
      decimal text; the passed count is the total less the other two. */
  lemma AfterBuildTestCounts(prior: Payload, b: BuildSnapshot, props: AlertProperties, baseUrl: Option<string>)
    requires b.testSummary.Some?
    ensures var p := AfterBuildPayload(prior, b, props, baseUrl);
      var t := b.testSummary.value;
      && PassedTestCount in p && FailedTestCount in p && SkippedTestCount in p
      && p[PassedTestCount] == Str(IntToString(t.totalCount - t.failCount - t.skipCount))
      && p[FailedTestCount] == Str(IntToString(t.failCount))
      && p[SkippedTestCount] == Str(IntToString(t.skipCount))
  {
    var t := b.testSummary.value;
    AfterBuildCount(prior, b, props, baseUrl, PassedTestCount, t.totalCount - t.failCount - t.skipCount);
    AfterBuildCount(prior, b, props, baseUrl, FailedTestCount, t.failCount);
    AfterBuildCount(prior, b, props, baseUrl, SkippedTestCount, t.skipCount);
  }

  lemma AfterBuildCount(prior: Payload, b: BuildSnapshot, props: AlertProperties, baseUrl: Option<string>,
                        k: Key, n: int)
    requires b.testSummary.Some?
    requires var t := b.testSummary.value;
      || (k == PassedTestCount && n == t.totalCount - t.failCount - t.skipCount)
      || (k == FailedTestCount && n == t.failCount)
      || (k == SkippedTestCount && n == t.skipCount)
    ensures var p := AfterBuildPayload(prior, b, props, baseUrl);
      k in p && p[k] == Str(IntToString(n))
  {
    assert AfterBuildWrites(k, b, props);
  }

  /** The failed tests are listed exactly when there is a test summary and the
      build is failing or unstable. */
  lemma AfterBuildFailedTests(prior: Payload, b: BuildSnapshot, props: AlertProperties, baseUrl: Option<string>)
    ensures var p := AfterBuildPayload(prior, b, props, baseUrl);
      && (FailedTests in p <==> FailedTests in prior || (b.testSummary.Some? && IsFailing(b.result)))
      && (b.testSummary.Some? && IsFailing(b.result) ==>
            p[FailedTests] == Str(FormatFailedTests(b.testSummary.value.failedTests)))
  {
  }

  predicate IsTestKey(k: Key) {
    k == PassedTestCount || k == FailedTestCount || k == SkippedTestCount || k == FailedTests
  }

  /** Without a test summary no test entry is put: those the map held stay as they were. */
  lemma AfterBuildNoTestSummary(prior: Payload, b: BuildSnapshot, props: AlertProperties, baseUrl: Option<string>, k: Key)
    requires b.testSummary.None? && IsTestKey(k)
    ensures var p := AfterBuildPayload(prior, b, props, baseUrl);
      && (k in p <==> k in prior)
      && (k in prior ==> p[k] == prior[k])
  {
    assert !AfterBuildWrites(k, b, props);
  }

  /** The commit list is put exactly for an `AbstractBuild`. */
  lemma AfterBuildCommitList(prior: Payload, b: BuildSnapshot, props: AlertProperties, baseUrl: Option<string>)
    ensures var p := AfterBuildPayload(prior, b, props, baseUrl);
      && (CommitList in p <==> CommitList in prior || b.isAbstractBuild)
      && (b.isAbstractBuild ==> p[CommitList] == Str(FormatCommitList(b.changeSet)))
  {
  }

  /** With a previous build, its name and time are put. */
  lemma AfterBuildPrevious(prior: Payload, b: BuildSnapshot, props: AlertProperties, baseUrl: Option<string>)
    requires b.previous.Some?
    ensures var p := AfterBuildPayload(prior, b, props, baseUrl);
      && p[PreviousDisplayName] == Str(b.previous.value.displayName)
      && p[PreviousTime] == Str(b.previous.value.time)
  {
    assert AfterBuildWrites(PreviousDisplayName, b, props);
    assert AfterBuildWrites(PreviousTime, b, props);
  }

  /** The previous build's status is put exactly when it has a result. */
  lemma AfterBuildPreviousStatus(prior: Payload, b: BuildSnapshot, props: AlertProperties, baseUrl: Option<string>)
    ensures var p := AfterBuildPayload(prior, b, props, baseUrl);
      var known := b.previous.Some? && b.previous.value.result.Some?;
      && (PreviousStatus in p <==> PreviousStatus in prior || known)
      && (known ==> p[PreviousStatus] == Str(b.previous.value.result.value.Name()))
  {
  }

  /** The previous build's project name is put exactly when it is known. */
  lemma AfterBuildPreviousProject(prior: Payload, b: BuildSnapshot, props: AlertProperties, baseUrl: Option<string>)
    ensures var p := AfterBuildPayload(prior, b, props, baseUrl);
      var known := b.previous.Some? && b.previous.value.projectName.Some?;
      && (PreviousProjectName in p <==> PreviousProjectName in prior || known)
      && (known ==> p[PreviousProjectName] == Str(b.previous.value.projectName.value))
  {
  }

  predicate IsPreviousKey(k: Key) {
    k == PreviousDisplayName || k == PreviousTime || k == PreviousStatus || k == PreviousProjectName
  }

  /** Without a previous build no previous-build entry is put. */
  lemma AfterBuildNoPrevious(prior: Payload, b: BuildSnapshot, props: AlertProperties, baseUrl: Option<string>, k: Key)
    requires b.previous.None? && IsPreviousKey(k)
    ensures var p := AfterBuildPayload(prior, b, props, baseUrl);
      && (k in p <==> k in prior)
      && (k in prior ==> p[k] == prior[k])
  {
    assert !AfterBuildWrites(k, b, props);
  }

  /** Both sends put the same eight mandatory entries, whatever the map held before. */
  lemma SendsShareMandatoryFields(prior: Payload, prior': Payload, b: BuildSnapshot, props: AlertProperties,
                                  baseUrl: Option<string>, k: Key)
    requires IsMandatory(k)
    ensures var m := MandatoryFields(prior, b, props, baseUrl);
      && PreBuildPayload(prior', b, props, baseUrl)[k] == m[k]
      && AfterBuildPayload(prior', b, props, baseUrl)[k] == m[k]
  {
    assert PreBuildWrites(k, props) && AfterBuildWrites(k, b, props);
  }

  /** The text of entry `k`, or "" when there is none. */
  function TextAt(p: Payload, k: Key): string {
    if k in p && p[k].Str? then p[k].text else ""
  }

  /** The three test counts read back as the numbers they were written from,
      so they add up to the total. */
  lemma TestCountsAddUp(prior: Payload, b: BuildSnapshot, props: AlertProperties, baseUrl: Option<string>)
    requires b.testSummary.Some?
    ensures var p := AfterBuildPayload(prior, b, props, baseUrl);
      var t := b.testSummary.value;
      var passed, failed, skipped :=
        ParseInt(TextAt(p, PassedTestCount)), ParseInt(TextAt(p, FailedTestCount)),
        ParseInt(TextAt(p, SkippedTestCount));
      && passed.Some? && failed.Some? && skipped.Some?
      && failed.value == t.failCount && skipped.value == t.skipCount
      && passed.value + failed.value + skipped.value == t.totalCount
  {
    var p := AfterBuildPayload(prior, b, props, baseUrl);
    var t := b.testSummary.value;
    var passed, failed, skipped := t.totalCount - t.failCount - t.skipCount, t.failCount, t.skipCount;
    AfterBuildCount(prior, b, props, baseUrl, PassedTestCount, passed);
    AfterBuildCount(prior, b, props, baseUrl, FailedTestCount, failed);
    AfterBuildCount(prior, b, props, baseUrl, SkippedTestCount, skipped);
    CountReadsBack(p, PassedTestCount, passed);
    CountReadsBack(p, FailedTestCount, failed);
    CountReadsBack(p, SkippedTestCount, skipped);
  }

  /** A count stored as `Integer.toString` text reads back as that count. */
  lemma CountReadsBack(p: Payload, k: Key, n: int)
    requires k in p && p[k] == Str(IntToString(n))
    ensures ParseInt(TextAt(p, k)) == Some(n)
  {
    IntToStringRoundTrip(n);
  }
}

=== FILE: service.dfy ===
/**
 `OpsGenieNotificationService`: one instance per request, holding the
 payload map it has built so far. Each send puts its entries into that map,
 serialises it, posts it and judges the reply.
 */
module Service {
  import opened Wrappers
  import opened Build
  import opened Payload
  import opened Delivery

  /** `OpsGenieNotificationRequest` without its console listener. */
  datatype NotificationRequest = NotificationRequest(
    apiKey: Option<string>,
    apiUrl: Option<string>,
    alertProperties: AlertProperties,
    build: BuildSnapshot)

  /** What the service reads from Jenkins and the libraries it calls. `serialize`
      is None when Jackson throws; `transport` returns "" when the HTTP call throws. */
  datatype Environment = Environment(
    baseUrl: Option<string>,
    proxy: Option<ProxyConfiguration>,
    parseUri: string -> Option<Uri>,
    matches: (string, string) -> bool,
    serialize: Payload -> Option<string>,
    transport: Post -> string,
    parseResponse: string -> Option<Option<string>>)

  datatype Phase = PreBuildSend | PostBuildSend

  /** A service instance: its request, its payload map, and the sends made so far. */
  datatype Service = Service(request: NotificationRequest, payload: Payload, sent: seq<Phase>)

  datatype SendResult = SendResult(service: Service, ok: bool)

  /** The constructor: an empty payload map and no sends yet. */
  function NewService(request: NotificationRequest): (s: Service)
    ensures s.request == request && s.payload == map[] && s.sent == []
  {
    Service(request, map[], [])
  }

  /** The body posted for a payload; a serialisation failure leaves it empty. */
  function Body(p: Payload, serialize: Payload -> Option<string>): (r: string)
    ensures serialize(p).Some? ==> r == serialize(p).value
    ensures serialize(p).None? ==> r == ""
  {
    serialize(p).GetOr("")
  }

  /** Serialise, post and judge the reply. A null or unparsable API URL means
      nothing is posted, and then the send fails unless "" reads as JSON. */
  function PostAndCheck(p: Payload, request: NotificationRequest, env: Environment): (ok: bool)
    ensures && (request.apiUrl.None? || env.parseUri(request.apiUrl.value).None?)
            && env.parseResponse("").None?
            ==> !ok
  {
    var post := PreparePost(request.apiUrl, request.apiKey, Body(p, env.serialize), env.proxy,
                            env.parseUri, env.matches);
    CheckResponse(Deliver(post, env.transport), env.parseResponse)
  }

  /** When the URL resolves, the post carries the serialised map, or the empty
      body when serialisation failed, and the outcome is the check of the
      transport's reply to that post. */
  lemma PostedBody(p: Payload, request: NotificationRequest, env: Environment)
    requires ResolveTarget(request.apiUrl, request.apiKey, env.parseUri).Some?
    ensures var post := PreparePost(request.apiUrl, request.apiKey, Body(p, env.serialize), env.proxy,
                                    env.parseUri, env.matches);
      && post.Some?
      && (env.serialize(p).Some? ==> post.value.body == env.serialize(p).value)
      && (env.serialize(p).None? ==> post.value.body == "")
      && PostAndCheck(p, request, env) == CheckResponse(env.transport(post.value), env.parseResponse)
  {
  }

  /** `sendPreBuildPayload`. */
  function SendPreBuildPayload(s: Service, env: Environment): (r: SendResult)
    ensures r.service.request == s.request
    ensures r.service.sent == s.sent + [PreBuildSend]
    ensures r.service.payload
         == PreBuildPayload(s.payload, s.request.build, s.request.alertProperties, env.baseUrl)
    ensures r.ok == PostAndCheck(r.service.payload, s.request, env)
  {
    var p := PreBuildPayload(s.payload, s.request.build, s.request.alertProperties, env.baseUrl);
    SendResult(Service(s.request, p, s.sent + [PreBuildSend]), PostAndCheck(p, s.request, env))
  }

  /** `sendAfterBuildData`. */
  function SendAfterBuildData(s: Service, env: Environment): (r: SendResult)
    ensures r.service.request == s.request
    ensures r.service.sent == s.sent + [PostBuildSend]
    ensures r.service.payload
         == AfterBuildPayload(s.payload, s.request.build, s.request.alertProperties, env.baseUrl)
    ensures r.ok == PostAndCheck(r.service.payload, s.request, env)
  {
    var p := AfterBuildPayload(s.payload, s.request.build, s.request.alertProperties, env.baseUrl);
    SendResult(Service(s.request, p, s.sent + [PostBuildSend]), PostAndCheck(p, s.request, env))
  }

  /** On one instance, a build-start priority put by a pre-build send is still in
      the post-build payload when no post-build priority is configured. */
  lemma StalePriorityOutlivesPreBuild(request: NotificationRequest, env: Environment)
    requires request.alertProperties.buildStartPriority.Some?
    requires request.alertProperties.priority.None?
    ensures var first := SendPreBuildPayload(NewService(request), env).service;
      var second := SendAfterBuildData(first, env).service;
      && Priority in second.payload
      && second.payload[Priority] == Str(request.alertProperties.buildStartPriority.value)
  {
  }

  /** No send removes a key: whatever an earlier send put is still there. */
  lemma SendsOnlyAdd(s: Service, env: Environment)
    ensures s.payload.Keys <= SendPreBuildPayload(s, env).service.payload.Keys
    ensures s.payload.Keys <= SendAfterBuildData(s, env).service.payload.Keys
  {
  }

  /** A reply that is empty because the call failed or never happened means failure,
      as long as the empty string is not readable JSON. */
  lemma EmptyReplyFails(s: Service, env: Environment)
    requires env.parseResponse("").None?
    requires forall p :: env.transport(p) == ""
    ensures !SendPreBuildPayload(s, env).ok
    ensures !SendAfterBuildData(s, env).ok
  {
  }
}

=== FILE: trigger_step.dfy ===
/**
 The `opsgenie` pipeline step: its own settings override the plugin's global
 settings field by field, and running it makes one post-build send.
 */
module TriggerStep {
  import opened Wrappers
  import opened JavaText
  import opened Build
  import opened Payload
  import opened Service

  /** The step's settings as the pipeline script gave them; any string may be null. */
  datatype StepValues = StepValues(
    enable: bool,
    notifyBuildStart: bool,
    tags: Option<string>,
    teams: Option<string>,
    apiKey: Option<string>,
    apiUrl: Option<string>,
    priority: Option<string>,
    buildStartPriority: Option<string>)

  /** The global settings of the `OpsGenieNotifier` descriptor. */
  datatype GlobalDefaults = GlobalDefaults(
    tags: Option<string>,
    teams: Option<string>,
    apiKey: Option<string>,
    apiUrl: Option<string>)

  /** `Util.fixNull`: null becomes the empty string. */
  function FixNull(s: Option<string>): (r: string)
    ensures s.Some? ==> r == s.value
    ensures r == "" <==> s.None? || s.value == ""
  {
    s.GetOr("")
  }

  /** A step value is used unless it is null or empty; otherwise the global one. */
  function OverrideOrDefault(given: Option<string>, fallback: Option<string>): (r: Option<string>)
    ensures given.Some? && given.value != "" ==> r == given
    ensures given.None? || given.value == "" ==> r == fallback
  {
    if FixNull(given) == "" then fallback else given
  }

  /** The request `run` builds. `fromDisplayName` stands for
      `AlertPriority.fromDisplayName` followed by `getValue`. */
  function ResolveRequest(step: StepValues, defaults: GlobalDefaults,
                          fromDisplayName: Option<string> -> Option<string>, build: BuildSnapshot)
    : (req: NotificationRequest)
    ensures step.tags.Some? && step.tags.value != "" ==> req.alertProperties.tags == step.tags
    ensures step.tags.None? || step.tags.value == "" ==> req.alertProperties.tags == defaults.tags
    ensures step.teams.Some? && step.teams.value != "" ==> req.alertProperties.teams == step.teams
    ensures step.teams.None? || step.teams.value == "" ==> req.alertProperties.teams == defaults.teams
    ensures step.apiKey.Some? && step.apiKey.value != "" ==> req.apiKey == step.apiKey
    ensures step.apiKey.None? || step.apiKey.value == "" ==> req.apiKey == defaults.apiKey
    ensures step.apiUrl.Some? && step.apiUrl.value != "" ==> req.apiUrl == step.apiUrl
    ensures step.apiUrl.None? || step.apiUrl.value == "" ==> req.apiUrl == defaults.apiUrl
    ensures req.alertProperties.priority == fromDisplayName(step.priority)
    ensures req.alertProperties.buildStartPriority == fromDisplayName(step.buildStartPriority)
    ensures req.build == build
  {
    var props := AlertProperties(
      OverrideOrDefault(step.tags, defaults.tags),
      OverrideOrDefault(step.teams, defaults.teams),
      fromDisplayName(step.priority),
      fromDisplayName(step.buildStartPriority));
    NotificationRequest(
      OverrideOrDefault(step.apiKey, defaults.apiKey),
      OverrideOrDefault(step.apiUrl, defaults.apiUrl),
      props,
      build)
  }

  /** What `run` leaves behind: its return value and the service instance it used. */
  datatype StepRun = StepRun(returned: Option<string>, service: Service)

  /** `OpsGenieTriggerStepExecution.run`: one post-build send from a fresh service;
      the outcome is dropped and null is returned. */
  function RunStep(step: StepValues, defaults: GlobalDefaults,
                   fromDisplayName: Option<string> -> Option<string>, build: BuildSnapshot, env: Environment)
    : (r: StepRun)
    ensures r.returned.None?
    ensures r.service.sent == [PostBuildSend]
    ensures r.service.request == ResolveRequest(step, defaults, fromDisplayName, build)
    ensures r.service.payload
         == AfterBuildPayload(map[], build, r.service.request.alertProperties, env.baseUrl)
    ensures IsPreBuild in r.service.payload && r.service.payload[IsPreBuild] == Str("false")
  {
    var request := ResolveRequest(step, defaults, fromDisplayName, build);
    var sent := SendAfterBuildData(NewService(request), env);
    StepRun(None, sent.service)
  }

  /** A step value made only of whitespace still overrides the global one: it is
      never trimmed before the emptiness test. */
  lemma WhitespaceOverridesDefault(given: string, fallback: Option<string>)
    requires |given| > 0 && forall i :: 0 <= i < |given| ==> IsWhitespace(given[i])
    ensures OverrideOrDefault(Some(given), fallback) == Some(given)
  {
  }

  /** The priorities never fall back to global settings: two runs that differ only
      in their global settings resolve the same priorities. */
  lemma PrioritiesIgnoreDefaults(step: StepValues, d1: GlobalDefaults, d2: GlobalDefaults,
                                 fromDisplayName: Option<string> -> Option<string>, build: BuildSnapshot)
    ensures var p1 := ResolveRequest(step, d1, fromDisplayName, build).alertProperties;
      var p2 := ResolveRequest(step, d2, fromDisplayName, build).alertProperties;
      p1.priority == p2.priority && p1.buildStartPriority == p2.buildStartPriority
  {
  }

  /** `enable` and `notifyBuildStart` play no part in a run: it sends the same
      post-build payload whatever they are. */
  lemma RunIgnoresEnableFlags(step: StepValues, enable: bool, notifyBuildStart: bool,
                              defaults: GlobalDefaults, fromDisplayName: Option<string> -> Option<string>,
                              build: BuildSnapshot, env: Environment)
    ensures var other := step.(enable := enable, notifyBuildStart := notifyBuildStart);
      RunStep(other, defaults, fromDisplayName, build, env).service
        == RunStep(step, defaults, fromDisplayName, build, env).service
  {
  }
}

=== FILE: wrappers.dfy ===
/** Option stands in for a Java reference that may be null. */
module Wrappers {

  datatype Option<+T> = None | Some(value: T) {

    /** The wrapped value, or `default` when absent. */
    function GetOr(default: T): T {
      match this
      case Some(v) => v
      case None => default
    }
  }
}
